=== FILE: README.md ===
# Interactive Syllabus: administration rules, path derivation and per-course caches

Interactive Syllabus serves course material written as Sphinx pages. Each course has a
"pages" directory and a table of contents (`toc.yaml`) that lists its chapters and pages.
Administrators use three pages:

- a users page, where they grant or withdraw the administrator right;
- a content-edition page, where they create or delete chapters and pages;
- a table-of-contents page, where they replace the whole table.

This Dafny project models the decision logic of those pages. It also models how the
application finds its files and how it memoises the table of contents, the Sphinx
support object and the configuration.

Modules, one file each:

- `Wrappers` (`wrappers.dfy`): `Option` and `Result`.
- `Paths` (`paths.dfy`): POSIX `os.path.join`, `basename` and `dirname` for two
  components. It proves that joining a single name and splitting the result gives back
  the name and the directory as `dirname` reports it (`AsDirname`). For a directory that
  does not end with "/", that is the directory itself. Otherwise trailing separators are
  dropped, unless the directory is all separators.
- `FileSystem` (`file_system.dfy`): the disk, a map from path to a file with its text or
  a directory.
- `Forms` (`forms.dfy`): the value a ticked checkbox submits.
- `Settings` (`settings.dfy`): `get_config_path`, `get_pages_path`,
  `get_pages_cache_path`, and the Sphinx source and build directories.
- `Caches` (`caches.dfy`): `get_toc`, `get_sphinx_support` and `get_config`, each a pure
  transition from the old cache to the returned value and the new cache.
- `ContentEdition` (`content_edition.dfy`): the creation checks (run in source order,
  first failure wins), creation, deletion, and the dispatch between them.
- `Users` (`users.dfy`): the `change_right` branch of the users page.
- `TocEdition` (`toc_edition.dfy`): accepting or refusing a submitted table of contents.

Modelling choices:

- The table of contents is its list of entries `(kind, path, title)`. Adding an entry
  appends it; removing one filters it out.
- The handler's queries to the table are given as a `TocQueries` record of functions:
  chapter by path, top-level entries, a chapter's direct content, and entry by path.
- The disk is a map from path to `File(text)` or `Directory`. A newly created page is an
  empty file.
- Whitespace is the set of characters Python's `\s` matches in a `str`.
- The path separator is `/`.

The administration module calls `get_toc()`, `get_pages_path()` and `save_toc(TOC)`
without the `course` argument that `syllabus/__init__.py` declares. The code as written
would therefore fail on those calls. The model follows the evident intent: the handlers
take the course's table and pages directory as inputs.

The docstring of `get_pages_path` says an environment variable `SYLLABUS_PAGES_PATH`
takes priority. The code never reads it. The model follows the code: the configured path,
or the working directory when that is null.

## Model

| member | source | states |
|---|---|---|
| Paths.Join | syllabus/admin/__init__.py:93-94 | an absolute second component replaces the first; otherwise the result starts with the first component, and is exactly both together when the first is empty or already ends with "/", or both with one "/" in between otherwise |
| Paths.JoinEndsWith | syllabus/admin/__init__.py:93-94 | the joined path ends with its second component |
| Paths.Basename | syllabus/__init__.py:75 | the basename contains no "/" and is a suffix of the path |
| Paths.Dirname | syllabus/__init__.py:75 | the dirname is a prefix of the path; a path without "/" has an empty dirname; an absolute path has an absolute dirname |
| Paths.JoinSplits | syllabus/admin/__init__.py:93-94 | joining a directory with a name that has no "/" gives a path whose basename is the name and whose dirname is the directory as `dirname` reports it, the directory itself when it does not end with "/" |
| Paths.JoinExtend | syllabus/admin/__init__.py:119-120 | adding ".rst" to the on-disk path and to the content path keeps the on-disk path equal to the pages directory joined with the content path |
| Settings.ConfigDir | syllabus/__init__.py:119-125 | the configuration directory is the process environment's SYLLABUS_CONFIG_PATH if set, else the request environment's (only inside a request context), else "." |
| Settings.ConfigPath | syllabus/__init__.py:119-125 | the configuration path has basename "configuration.yaml" and as dirname the chosen directory as `dirname` reports it (the directory itself unless it ends with "/"); with no variable and no request it is "./configuration.yaml" |
| Settings.ConfigPathOsEnvWins | syllabus/__init__.py:120-121 | once the process environment sets the variable, the request environment has no effect on the path |
| Settings.PagesBase | syllabus/__init__.py:73-74 | defined exactly for configured courses; it is the configured pages path, or the working directory when that is null |
| Settings.PagesPath | syllabus/__init__.py:66-75 | defined exactly for configured courses; it never ends with "/"; its basename is "pages" and its dirname the configured path, or the working directory when that is null, as `dirname` reports it (trailing "/" dropped) |
| Settings.PagesCachePath | syllabus/__init__.py:78-83 | defined exactly when the pages path is; it is the ".cache" entry directly inside the pages directory |
| Settings.SphinxSourceDir | syllabus/__init__.py:102 | the Sphinx source directory has basename "source" and as dirname the pages directory as `dirname` reports it |
| Settings.SphinxBuildDir | syllabus/__init__.py:103 | the Sphinx build directory has basename "syllabus-build"; its parent has basename "build" and as dirname the pages directory as `dirname` reports it |
| Caches.GetToc | syllabus/__init__.py:30-45 | a forced call or a miss loads and stores under the course; a hit returns the stored table with the cache untouched; afterwards the course maps to the returned value and other courses are unchanged |
| Caches.GetTocSettles | syllabus/__init__.py:42-43 | after any call, an unforced call for the same course returns the same table and changes nothing |
| Caches.GetTocForceIgnoresCache | syllabus/__init__.py:38-39 | a forced call returns the freshly loaded table whatever was cached and overwrites only that course |
| Caches.GetTocCommutes | syllabus/__init__.py:35 | calls for two different courses give the same values and final cache in either order |
| Caches.GetSphinxSupport | syllabus/__init__.py:100-116 | forced call, missing dictionary or missing course builds over the source and build directories of the given pages directory and stores it, creating the dictionary if needed; a hit returns the stored support unchanged; other courses are kept |
| Caches.GetSphinxSupportSettles | syllabus/__init__.py:113-114 | after any call, an unforced call for the same course is a hit that changes nothing |
| Caches.GetConfig | syllabus/__init__.py:86-97 | a forced or first call reads the file at the configuration path and keeps it; later unforced calls return the kept value |
| Caches.GetConfigPinned | syllabus/__init__.py:94-95 | once loaded, unforced calls return the kept configuration whatever the environments say later |
| ContentEdition.RemoveWhitespace | syllabus/admin/__init__.py:84 | deleting whitespace leaves no whitespace and never lengthens the name |
| ContentEdition.RemoveWhitespaceDetects | syllabus/admin/__init__.py:84 | deleting whitespace keeps the name's length exactly when the name contains no whitespace |
| ContentEdition.ResolveChapter | syllabus/admin/__init__.py:73-81 | an empty field means the top level; a non-empty field names the chapter the table finds at that path, and is missing exactly when the table finds none |
| ContentEdition.NewContentPath | syllabus/admin/__init__.py:93-119 | the content path ends with the name (plus ".rst" for a page), is exactly that at the top level, and starts with the containing chapter's path inside a chapter |
| ContentEdition.Validate | syllabus/admin/__init__.py:73-141 | each error holds exactly when its check is the first to fail, in source order: chapter not found, empty or whitespace name, separator, page at top level, duplicate sibling title, the joined path already a key of the disk map; on success the entry has the form's title, the kind its action names, the expected content path, and a disk path that is free |
| ContentEdition.NewContentPathSplits | syllabus/admin/__init__.py:93-119 | the new content path has basename the name (plus ".rst" for a page); its dirname is the containing chapter's path as `dirname` reports it, or empty at the top level |
| ContentEdition.CreateContent | syllabus/admin/__init__.py:116-146 | a rejection or a non-creating action changes nothing; a creation appends exactly one entry, a page for "create_page" and a chapter otherwise, with the new content path and the form's title, and adds exactly one node at its path, which did not exist: an empty file for a page, a directory for a chapter |
| ContentEdition.RemoveEntry | syllabus/admin/__init__.py:160 | the entry is gone from the table, every other entry stays, and a one-entry table loses its entry exactly when it is the one removed |
| ContentEdition.RemoveEntryDistributes | syllabus/admin/__init__.py:160 | removal from a concatenation is removal from each part, so the remaining entries keep their order |
| ContentEdition.RemoveTree | syllabus/admin/__init__.py:168-170 | removing a chapter's files drops the directory and everything below it and keeps the rest |
| ContentEdition.DeleteContent | syllabus/admin/__init__.py:154-176 | an unknown entry changes nothing; otherwise the entry always leaves the table, which keeps the other entries in order; files go only when the checkbox is "on": the tree for a chapter, the single file for a page; a missing or wrong-kind target is an error after the table change |
| ContentEdition.ContentEditionPost | syllabus/admin/__init__.py:69-72 | "delete_content" is exactly the deletion step and never creates; any other action is exactly the creation step and never deletes |
| ContentEdition.CreateTwiceRejected | syllabus/admin/__init__.py:103-114 | once the table lists the created entry among the siblings, submitting the same creation again is refused by the duplicate-title check (top level or chapter), before the disk is consulted |
| ContentEdition.CreateThenDeleteRestores | syllabus/admin/__init__.py:154-173 | deleting, with files, an entry just created restores both the table and the disk |
| ContentEdition.DeleteKeepingFilesBlocksRecreation | syllabus/admin/__init__.py:166-167 | after deleting an entry but keeping its files, creating it again is refused because the file still exists |
| Users.FirstNamed | syllabus/admin/__init__.py:49 | finds the first user with the given name, or reports that there is none |
| Users.GrantedRight | syllabus/admin/__init__.py:52 | the right is "admin" exactly when the form's checkbox is "on", and null otherwise |
| Users.UsersPost | syllabus/admin/__init__.py:46-55 | only "change_right" changes anything; the logged-in user's own record never changes; otherwise only the first user with the form's name gets the form's right; names and table length are kept |
| Users.UsersPostIdempotent | syllabus/admin/__init__.py:48-53 | submitting the same rights form twice leaves the table as submitting it once |
| TocEdition.TocEditionPost | syllabus/admin/__init__.py:183-204 | the text is written verbatim as a file "toc.yaml" whose dirname is the pages directory as `dirname` reports it, exactly when it parses, is consistent and "toc.yaml" is not a directory; a directory there is a write failure; otherwise the outcome names the first failing check and no file changes; success is reported only after a write or when nothing was submitted |
| TocEdition.TocFileStaysValid | syllabus/admin/__init__.py:186-200 | a valid table-of-contents file stays valid whatever is submitted |

## Left out

- Flask routing, templates, `abort`, `seeother` and the GET branches are not modelled. Feedback messages become error constructors; the message texts are not reproduced.
- The `permission_admin` check and the `sidebar_page` decorator's global `sidebar` mutation are not modelled: they are framework plumbing.
- The database (`User.query`, `db_session.commit`) becomes a list of user records. The first match in list order stands for the query's `first()`.
- YAML loading and dumping, and `TableOfContent.is_toc_dict_valid`, are not modelled. They are foreign code and appear as the parameters `parse` and `consistent`.
- `syllabus/utils/toc.py` is not part of this model. Its queries appear as `TocQueries`; adding appends and removing filters out every copy of the entry.
- Writing `toc.yaml` after a content edit (`save_toc`) and the forced reload that follows are not modelled. The handlers return the new entry list, and `Caches.GetToc` models a forced reload.
- The forced reload after a table-of-contents write (`get_toc(force=True)`, syllabus/admin/__init__.py:201) is not composed with `TocEdition.TocEditionPost`. Loading a table from the file is not part of this model, and `Caches.GetToc` models the reload on its own.
- The table-of-contents queries are not tied to the entry list. After an edit, a caller must supply the queries of the edited table, as `ContentEdition.CreateTwiceRejected` does through its hypotheses.
- `shutil.rmtree`, `os.remove`, `os.mkdir` and `open` act on the `FileSystem` disk map. Only these failures are modelled: a missing or wrong-kind target (including `open` for writing on a directory), and an existing path.
- Other filesystem failures are not modelled: a missing parent directory, permissions, and I/O errors.
- Paths are compared as strings without normalisation; `Paths.Within` is a prefix test on `dir + "/"`.
- ContentEdition.Validate: a chapter named "." or ".." (joined as "ch/." or "pages/..") names a directory that already exists, so the source's `os.mkdir` refuses it with "already exists"; the model compares path strings, sees a new key, and accepts it. Resolving "." and ".." components is not part of this model.
- Form fields the handlers index directly are assumed present: a missing one makes Flask answer 400 Bad Request. Fields the source tests first (`admin`, `delete-files`, `new_content`) are optional.
- Sphinx `WebSupport` construction and `build()` are not modelled. They appear as the `build` parameter, applied to the source and build directories. `safe_join` with these constant components is treated as a plain join.
- The configuration file read and `get_config()['courses'][course]['pages']['path']` are simplified. A course missing from the table gives `None` (the source raises `KeyError`); a course entry is assumed to hold `pages.path`.
- `get_courses`, `get_root_path`, `set_config` and `save_toc` are not modelled: they are not part of the decision logic modelled here.
- Users.UsersPost: a user name that matches nobody yields `NoSuchUser` with nothing changed. The source instead fails on `None.username`, a server error.
- ContentEdition.DeleteContent: an unknown content path yields `ContentNotFound` with nothing changed. The source lets `ContentNotFoundError` escape, a server error.
- The loaders `load`, `build` and `read` are total functions: a load that raises is not modelled.

=== FILE: caches.dfy ===
/**
 * The memoised loaders: `get_toc` and `get_sphinx_support` keep one value per course,
 * `get_config` keeps a single value. Each is a transition from the old cache to the
 * returned value and the new cache; the loaders themselves (reading YAML, building the
 * Sphinx project) are parameters.
 */
module Caches {
  import opened Wrappers
  import opened Paths
  import opened Settings

  /** What a memoised getter returns, together with the cache it leaves behind. */
  datatype Lookup<V, C> = Lookup(value: V, cache: C)

  /**
   * `get_toc(course, force)`: a forced call or a miss loads the table of contents and
   * stores it under `course`; a hit returns the stored table and keeps the cache as it was.
   */
  function GetToc<T>(cache: map<Course, T>, course: Course, force: bool, load: Course -> T): (r: Lookup<T, map<Course, T>>)
    ensures course in r.cache && r.cache[course] == r.value
    ensures r.cache.Keys == cache.Keys + {course}
    ensures forall k :: k in cache && k != course ==> r.cache[k] == cache[k]
    ensures force || course !in cache ==> r.value == load(course)
    ensures !force && course in cache ==> r.value == cache[course] && r.cache == cache
  {
    if !force && course in cache then Lookup(cache[course], cache)
    else
      var toc := load(course);
      Lookup(toc, cache[course := toc])
  }

  /** Right after any call, an unforced call for the same course is a hit that changes nothing. */
  lemma GetTocSettles<T>(cache: map<Course, T>, course: Course, force: bool, load: Course -> T)
    ensures var first := GetToc(cache, course, force, load);
            GetToc(first.cache, course, false, load) == first
  {
  }

  /** A forced call does not depend on what was cached before. */
  lemma GetTocForceIgnoresCache<T>(c1: map<Course, T>, c2: map<Course, T>, course: Course, load: Course -> T)
    ensures GetToc(c1, course, true, load).value == GetToc(c2, course, true, load).value
    ensures GetToc(c1, course, true, load).cache == c1[course := load(course)]
  {
  }

  /** Calls for two different courses do not interfere: done in either order they give the same values and cache. */
  lemma GetTocCommutes<T>(cache: map<Course, T>, a: Course, fa: bool, b: Course, fb: bool, load: Course -> T)
    requires a != b
    ensures var ra := GetToc(cache, a, fa, load);
            var rab := GetToc(ra.cache, b, fb, load);
            var rb := GetToc(cache, b, fb, load);
            var rba := GetToc(rb.cache, a, fa, load);
            rab.cache == rba.cache && ra.value == rba.value && rb.value == rab.value
  {
    var ra := GetToc(cache, a, fa, load);
    var rab := GetToc(ra.cache, b, fb, load);
    var rb := GetToc(cache, b, fb, load);
    var rba := GetToc(rb.cache, a, fa, load);
    assert rab.cache.Keys == rba.cache.Keys;
    forall k | k in rab.cache
      ensures rab.cache[k] == rba.cache[k]
    {
      if k != a && k != b {
        assert rab.cache[k] == cache[k] == rba.cache[k];
      }
    }
  }

  /**
   * `get_sphinx_support(course, force)`. The per-course dictionary is itself created on
   * first use (`cached` is `None` until then). A forced call, a missing dictionary or a
   * missing course builds the Sphinx support over the source and build directories of the
   * given pages directory `pages` (the caller passes the course's `get_pages_path`) and
   * stores it; a hit returns the stored one and keeps the cache as it was.
   */
  function GetSphinxSupport<S>(cached: Option<map<Course, S>>, course: Course, pages: Path, force: bool,
                               build: (Path, Path) -> S): (r: Lookup<S, Option<map<Course, S>>>)
    ensures r.cache.Some? && course in r.cache.value && r.cache.value[course] == r.value
    ensures forall k :: k in r.cache.value <==> k == course || (cached.Some? && k in cached.value)
    ensures forall k :: cached.Some? && k in cached.value && k != course ==> r.cache.value[k] == cached.value[k]
    ensures !force && cached.Some? && course in cached.value ==> r.value == cached.value[course] && r.cache == cached
    ensures force || cached.None? || course !in cached.value
            ==> r.value == build(SphinxSourceDir(pages), SphinxBuildDir(pages))
  {
    if !force && cached.Some? && course in cached.value then Lookup(cached.value[course], cached)
    else
      var support := build(SphinxSourceDir(pages), SphinxBuildDir(pages));
      var table := if cached.Some? then cached.value else map[];
      Lookup(support, Some(table[course := support]))
  }

  /** Right after any call, an unforced call for the same course is a hit that changes nothing. */
  lemma GetSphinxSupportSettles<S>(cached: Option<map<Course, S>>, course: Course, pages: Path, force: bool,
                                   build: (Path, Path) -> S)
    ensures var first := GetSphinxSupport(cached, course, pages, force, build);
            GetSphinxSupport(first.cache, course, pages, false, build) == first
  {
  }

  /**
   * `get_config(force)`: a forced call or a first call reads the configuration file found
   * through the environments and keeps what it read; later calls return the kept value.
   */
  function GetConfig<C>(cached: Option<C>, force: bool, osEnv: Env, requestEnv: Option<Env>,
                        read: Path -> C): (r: Lookup<C, Option<C>>)
    ensures r.cache == Some(r.value)
    ensures !force && cached.Some? ==> r.value == cached.value
    ensures force || cached.None? ==> r.value == read(ConfigPath(osEnv, requestEnv))
  {
    if !force && cached.Some? then Lookup(cached.value, cached)
    else
      var config := read(ConfigPath(osEnv, requestEnv));
      Lookup(config, Some(config))
  }

  /**
   * Once loaded, the configuration is pinned: unforced calls return it whatever the
   * environments say by then.
   */
  lemma GetConfigPinned<C>(cached: Option<C>, force: bool, osEnv: Env, requestEnv: Option<Env>,
                           osEnv': Env, requestEnv': Option<Env>, read: Path -> C)
    ensures var first := GetConfig(cached, force, osEnv, requestEnv, read);
            GetConfig(first.cache, false, osEnv', requestEnv', read) == first
  {
  }
}

=== FILE: content_edition.dfy ===
/**
 * The content-edition page of the administration: creating a page or a chapter in the
 * table of contents (with its file or directory in the pages directory), and deleting one.
 *
 * The table of contents is the list of its entries; the queries the handler puts to it
 * (finding a chapter or an entry by path, listing the top level or a chapter's direct
 * content) are supplied as `TocQueries`. A new page is an empty file.
 */
module ContentEdition {
  import opened Wrappers
  import opened Paths
  import opened FileSystem
  import opened Forms

  datatype Kind = Page | Chapter

  /** An entry of the table of contents; `path` is relative to the pages directory. */
  datatype Content = Content(kind: Kind, path: Path, title: string)

  datatype State = State(toc: seq<Content>, disk: Disk)

  /** The answers the table of contents gives to the handler's queries. */
  datatype TocQueries = TocQueries(
    chapterAt: Path -> Option<Content>,        // None when no chapter has that path
    topLevel: seq<Content>,
    directContentOf: Content -> seq<Content>,
    contentAt: Path -> Option<Content>)        // None when no entry has that path

  /** The fields of the submitted form that the handler reads. */
  datatype Form = Form(
    action: string,
    containingChapter: Path,
    name: string,
    title: string,
    contentPath: Path,
    deleteFiles: Option<string>)

  const CreatePageAction: string := "create_page"
  const CreateChapterAction: string := "create_chapter"
  const DeleteContentAction: string := "delete_content"
  const PageExtension: string := ".rst"

  // ---------------------------------------------------------------------------------
  // Names

  /** The characters the regular expression class `\s` matches in a Python string. */
  predicate IsWhitespace(c: char) {
    || ('\t' <= c <= '\r')
    || ('\U{1C}' <= c <= ' ')
    || c == '\U{85}' || c == '\U{A0}' || c == '\U{1680}'
    || ('\U{2000}' <= c <= '\U{200A}')
    || c == '\U{2028}' || c == '\U{2029}' || c == '\U{202F}' || c == '\U{205F}' || c == '\U{3000}'
  }

  predicate HasWhitespace(s: string) {
    exists i :: 0 <= i < |s| && IsWhitespace(s[i])
  }

  /** `re.sub(r'\s+', '', s)`: every run of whitespace deleted. */
  function RemoveWhitespace(s: string): (r: string)
    ensures |r| <= |s|
    ensures forall i :: 0 <= i < |r| ==> !IsWhitespace(r[i])
  {
    if s == [] then []
    else if IsWhitespace(s[0]) then RemoveWhitespace(s[1..])
    else [s[0]] + RemoveWhitespace(s[1..])
  }

  /**
   * The handler's length comparison detects whitespace exactly: removing it leaves a
   * string without whitespace unchanged and shortens every other string.
   */
  lemma {:induction false} RemoveWhitespaceDetects(s: string)
    ensures !HasWhitespace(s) ==> RemoveWhitespace(s) == s
    ensures HasWhitespace(s) ==> |RemoveWhitespace(s)| < |s|
    ensures |RemoveWhitespace(s)| == |s| <==> !HasWhitespace(s)
  {
    if s != [] {
      RemoveWhitespaceDetects(s[1..]);
      if IsWhitespace(s[0]) {
        assert HasWhitespace(s);
      } else if HasWhitespace(s) {
        var i :| 0 <= i < |s| && IsWhitespace(s[i]);
        assert IsWhitespace(s[1..][i - 1]);
      } else {
        assert !HasWhitespace(s[1..]) by {
          forall i | 0 <= i < |s[1..]|
            ensures !IsWhitespace(s[1..][i])
          {
            assert s[1..][i] == s[i + 1];
          }
        }
        assert s == [s[0]] + s[1..];
      }
    }
  }

  /** A name the handler accepts: not empty, no whitespace, no separator. */
  predicate ValidName(name: string) {
    name != [] && !HasWhitespace(name) && Sep !in name
  }

  // ---------------------------------------------------------------------------------
  // Creation

  datatype CreateError =
    | ChapterNotFound
    | EmptyOrSpacedName
    | SeparatorInName
    | PageAtTopLevel
    | TitleTakenAtTopLevel
    | TitleTakenInChapter
    | AlreadyExists

  /** Where the new entry goes: the top level, a chapter that exists, or a chapter that does not. */
  datatype ChapterLookup = TopLevel | Missing | In(chapter: Content)

  /**
   * The containing chapter named by the form: none when the field is empty, otherwise the
   * chapter the table finds at that path, or `Missing` when it finds none.
   */
  function ResolveChapter(containing: Path, q: TocQueries): (r: ChapterLookup)
    ensures r.TopLevel? <==> containing == ""
    ensures r.Missing? <==> containing != "" && q.chapterAt(containing).None?
    ensures r.In? ==> q.chapterAt(containing) == Some(r.chapter)
  {
    if containing == "" then TopLevel
    else match q.chapterAt(containing)
      case None => Missing
      case Some(c) => In(c)
  }

  predicate ChapterResolves(form: Form, q: TocQueries) {
    form.containingChapter == "" || q.chapterAt(form.containingChapter).Some?
  }

  /** The entries a new title must differ from: the top level, or the chapter's direct content. */
  function Siblings(lookup: ChapterLookup, q: TocQueries): seq<Content> {
    match lookup
    case In(c) => q.directContentOf(c)
    case _ => q.topLevel
  }

  predicate TitleTaken(siblings: seq<Content>, title: string) {
    exists i :: 0 <= i < |siblings| && siblings[i].title == title
  }

  predicate IsCreation(action: string) {
    action == CreatePageAction || action == CreateChapterAction
  }

  /** The path, relative to the pages directory, of the entry the form asks for. */
  function NewContentPath(form: Form, q: TocQueries): (r: Path)
    ensures var ext := if form.action == CreatePageAction then PageExtension else "";
            && |form.name + ext| <= |r| && r[|r| - |form.name + ext|..] == form.name + ext
            && (form.containingChapter == "" ==> r == form.name + ext)
    ensures var dir := ResolveChapter(form.containingChapter, q);
            dir.In? && !IsAbsolute(form.name) ==> dir.chapter.path <= r
  {
    var dir := ResolveChapter(form.containingChapter, q);
    var base := if dir.In? then Join(dir.chapter.path, form.name) else form.name;
    if form.action == CreatePageAction then base + PageExtension else base
  }

  /** Every check before the one against the disk passes. */
  predicate PassesChecks(form: Form, q: TocQueries) {
    && ChapterResolves(form, q)
    && ValidName(form.name)
    && !(form.containingChapter == "" && form.action == CreatePageAction)
    && !TitleTaken(Siblings(ResolveChapter(form.containingChapter, q), q), form.title)
  }

  /**
   * The new entry's path names the entry inside its chapter: its basename is the name
   * (with the page extension for a page) and its dirname is the chapter's path, or empty
   * at the top level.
   */
  lemma NewContentPathSplits(form: Form, q: TocQueries)
    requires ValidName(form.name)
    ensures var p := NewContentPath(form, q);
            Basename(p) == if form.action == CreatePageAction then form.name + PageExtension else form.name
    ensures var dir := ResolveChapter(form.containingChapter, q);
            dir.In? ==> Dirname(NewContentPath(form, q)) == AsDirname(dir.chapter.path)
    ensures form.containingChapter == "" ==> Dirname(NewContentPath(form, q)) == ""
  {
    var dir := ResolveChapter(form.containingChapter, q);
    var chapterPath := if dir.In? then dir.chapter.path else "";
    assert Join("", form.name) == form.name;
    var ext := if form.action == CreatePageAction then PageExtension else "";
    assert form.name + "" == form.name;
    assert NewContentPath(form, q) == Join(chapterPath, form.name) + ext;
    JoinExtendSplits(chapterPath, form.name, ext);
  }

  /** What a form that passes every check asks for. */
  datatype Plan = Create(content: Content, file: Path, node: Node) | NothingToCreate

  /** What creating an entry of this kind puts on disk: an empty file for a page, a directory for a chapter. */
  function NewNode(kind: Kind): Node {
    if kind == Page then File("") else Directory
  }

  /**
   * The checks of the content-edition handler, in the order it runs them; the first one
   * that fails decides the error. A form that passes them all yields the entry to add and
   * the file or directory to create, or nothing when the action creates nothing.
   */
  function Validate(form: Form, q: TocQueries, pagesPath: Path, disk: Disk): (r: Result<Plan, CreateError>)
    ensures r == Failure(ChapterNotFound)
            <==> form.containingChapter != "" && q.chapterAt(form.containingChapter).None?
    ensures r == Failure(EmptyOrSpacedName)
            <==> ChapterResolves(form, q) && (form.name == "" || HasWhitespace(form.name))
    ensures r == Failure(SeparatorInName)
            <==> ChapterResolves(form, q) && form.name != "" && !HasWhitespace(form.name) && Sep in form.name
    ensures r == Failure(PageAtTopLevel)
            <==> ValidName(form.name) && form.containingChapter == "" && form.action == CreatePageAction
    ensures r == Failure(TitleTakenAtTopLevel)
            <==> ValidName(form.name) && form.containingChapter == "" && form.action != CreatePageAction
                 && TitleTaken(q.topLevel, form.title)
    ensures r == Failure(TitleTakenInChapter)
            <==> ValidName(form.name) && form.containingChapter != ""
                 && q.chapterAt(form.containingChapter).Some?
                 && TitleTaken(q.directContentOf(q.chapterAt(form.containingChapter).value), form.title)
    ensures r == Failure(AlreadyExists)
            <==> PassesChecks(form, q) && IsCreation(form.action) && Join(pagesPath, NewContentPath(form, q)) in disk
    ensures r.Success? <==> PassesChecks(form, q) && !(IsCreation(form.action) && Join(pagesPath, NewContentPath(form, q)) in disk)
    ensures r == Success(NothingToCreate) <==> PassesChecks(form, q) && !IsCreation(form.action)
    ensures r.Success? && r.value.Create? ==>
              && IsCreation(form.action)
              && r.value.content.title == form.title
              && r.value.content.path == NewContentPath(form, q)
              && r.value.file == Join(pagesPath, r.value.content.path)
              && r.value.file !in disk
              && (r.value.content.kind == Page <==> form.action == CreatePageAction)
              && r.value.node == NewNode(r.value.content.kind)
  {
    var lookup := ResolveChapter(form.containingChapter, q);
    RemoveWhitespaceDetects(form.name);
    if lookup.Missing? then Failure(ChapterNotFound)
    else if |form.name| == 0 || |RemoveWhitespace(form.name)| != |form.name| then Failure(EmptyOrSpacedName)
    else if Sep in form.name then Failure(SeparatorInName)
    else
      var contentPath := if lookup.In? then Join(lookup.chapter.path, form.name) else form.name;
      var path := Join(pagesPath, contentPath);
      if lookup.TopLevel? && form.action == CreatePageAction then Failure(PageAtTopLevel)
      else if TitleTaken(Siblings(lookup, q), form.title) then
        Failure(if lookup.TopLevel? then TitleTakenAtTopLevel else TitleTakenInChapter)
      else if form.action == CreatePageAction then
        JoinExtend(pagesPath, contentPath, PageExtension);
        if path + PageExtension in disk then Failure(AlreadyExists)
        else Success(Create(Content(Page, contentPath + PageExtension, form.title), path + PageExtension, NewNode(Page)))
      else if form.action == CreateChapterAction then
        if path in disk then Failure(AlreadyExists)
        else Success(Create(Content(Chapter, contentPath, form.title), path, NewNode(Chapter)))
      else Success(NothingToCreate)
  }

  /** The handler's answer, and what it leaves behind. */
  datatype Response =
    | CreateRejected(error: CreateError)
    | Created(content: Content)
    | NothingCreated
    | Deleted
    | DeleteFailed(reason: DeleteError)

  datatype DeleteError =
    | ContentNotFound   // the path names no entry of the table of contents
    | RemovalFailed     // the entry is gone from the table, but its file or directory could not be removed

  datatype Step = Step(response: Response, state: State)

  /**
   * Creating an entry: a rejected form changes nothing; an accepted one creates the file
   * (a page) or the directory (a chapter) and appends the entry to the table of contents.
   */
  function CreateContent(form: Form, q: TocQueries, pagesPath: Path, s: State): (r: Step)
    ensures Validate(form, q, pagesPath, s.disk).Failure?
            ==> r == Step(CreateRejected(Validate(form, q, pagesPath, s.disk).error), s)
    ensures r.response.Created? ==>
              r.response.content
              == Content(if form.action == CreatePageAction then Page else Chapter, NewContentPath(form, q), form.title)
    ensures r.response.Created? ==>
              && |r.state.toc| == |s.toc| + 1
              && r.state.toc[..|s.toc|] == s.toc
              && r.state.toc[|s.toc|] == r.response.content
              && var file := Join(pagesPath, r.response.content.path);
                 file !in s.disk && r.state.disk.Keys == s.disk.Keys + {file}
                 && (forall p :: p in s.disk ==> r.state.disk[p] == s.disk[p])
                 && r.state.disk[file] == NewNode(r.response.content.kind)
    ensures r.response.Created? <==> PassesChecks(form, q) && IsCreation(form.action)
                                     && Join(pagesPath, NewContentPath(form, q)) !in s.disk
    ensures !r.response.Created? ==> r.state == s
    ensures PassesChecks(form, q) && !IsCreation(form.action) ==> r == Step(NothingCreated, s)
    ensures r.response.CreateRejected?
            <==> !PassesChecks(form, q) || (IsCreation(form.action) && Join(pagesPath, NewContentPath(form, q)) in s.disk)
  {
    match Validate(form, q, pagesPath, s.disk)
    case Failure(e) => Step(CreateRejected(e), s)
    case Success(NothingToCreate) => Step(NothingCreated, s)
    case Success(Create(c, file, node)) => Step(Created(c), State(s.toc + [c], s.disk[file := node]))
  }

  /**
   * `remove_content_from_toc`, on the list of entries: every occurrence of the entry goes
   * and the other entries keep their order.
   */
  function RemoveEntry(toc: seq<Content>, c: Content): (r: seq<Content>)
    ensures forall e :: e in r <==> e in toc && e != c
    ensures c !in toc ==> r == toc
    ensures |r| <= |toc|
    ensures |toc| == 1 ==> r == (if toc[0] == c then [] else toc)
  {
    if toc == [] then []
    else if toc[0] == c then RemoveEntry(toc[1..], c)
    else [toc[0]] + RemoveEntry(toc[1..], c)
  }

  /**
   * Removal works entry by entry, in order: removing from a concatenation is removing from
   * each part. With the single-entry case of `RemoveEntry`'s contract this fixes the result
   * completely: the entries other than `c`, in their original order.
   */
  lemma {:induction false} RemoveEntryDistributes(a: seq<Content>, b: seq<Content>, c: Content)
    ensures RemoveEntry(a + b, c) == RemoveEntry(a, c) + RemoveEntry(b, c)
  {
    if a == [] {
      assert a + b == b;
    } else {
      assert (a + b)[0] == a[0];
      assert (a + b)[1..] == a[1..] + b;
      RemoveEntryDistributes(a[1..], b, c);
      if a[0] != c {
        assert RemoveEntry(a + b, c) == [a[0]] + (RemoveEntry(a[1..], c) + RemoveEntry(b, c));
      }
    }
  }

  /** `shutil.rmtree(dir)` on the disk: the directory and everything below it disappear. */
  function RemoveTree(disk: Disk, dir: Path): (r: Disk)
    ensures forall p :: p in r <==> p in disk && !Within(p, dir)
    ensures forall p :: p in r ==> r[p] == disk[p]
  {
    map p | p in disk && !Within(p, dir) :: disk[p]
  }

  /**
   * Deleting an entry: the entry always leaves the table of contents; its files are removed
   * only when the form's checkbox is on, the whole tree for a chapter and the single file
   * for a page. An entry that does not exist changes nothing.
   */
  function DeleteContent(form: Form, q: TocQueries, pagesPath: Path, s: State): (r: Step)
    ensures q.contentAt(form.contentPath).None? ==> r == Step(DeleteFailed(ContentNotFound), s)
    ensures q.contentAt(form.contentPath).Some? ==>
              var c := q.contentAt(form.contentPath).value;
              && r.state.toc == RemoveEntry(s.toc, c)
              && c !in r.state.toc
              && (forall e :: e in r.state.toc <==> e in s.toc && e != c)
    ensures form.deleteFiles != Some(CheckboxOn) ==> r.state.disk == s.disk
    ensures q.contentAt(form.contentPath).Some? && form.deleteFiles != Some(CheckboxOn) ==> r.response == Deleted
    ensures q.contentAt(form.contentPath).Some? && form.deleteFiles == Some(CheckboxOn) ==>
              var c := q.contentAt(form.contentPath).value;
              var path := Join(pagesPath, form.contentPath);
              if path in s.disk && (if c.kind == Chapter then s.disk[path].Directory? else s.disk[path].File?) then
                && r.response == Deleted
                && (c.kind == Chapter ==> forall p :: p in r.state.disk <==> p in s.disk && !Within(p, path))
                && (c.kind == Page ==> r.state.disk.Keys == s.disk.Keys - {path})
                && (forall p :: p in r.state.disk ==> p in s.disk && r.state.disk[p] == s.disk[p])
              else
                r.response == DeleteFailed(RemovalFailed) && r.state.disk == s.disk
  {
    match q.contentAt(form.contentPath)
    case None => Step(DeleteFailed(ContentNotFound), s)
    case Some(c) =>
      var toc := RemoveEntry(s.toc, c);
      var path := Join(pagesPath, form.contentPath);
      if form.deleteFiles != Some(CheckboxOn) then Step(Deleted, State(toc, s.disk))
      else if c.kind == Chapter then
        if path in s.disk && s.disk[path] == Directory then Step(Deleted, State(toc, RemoveTree(s.disk, path)))
        else Step(DeleteFailed(RemovalFailed), State(toc, s.disk))
      else if path in s.disk && s.disk[path].File? then Step(Deleted, State(toc, s.disk - {path}))
      else Step(DeleteFailed(RemovalFailed), State(toc, s.disk))
  }

  /** The POST side of the content-edition page: a deletion, or else a creation. */
  function ContentEditionPost(form: Form, q: TocQueries, pagesPath: Path, s: State): (r: Step)
    ensures form.action == DeleteContentAction ==> r == DeleteContent(form, q, pagesPath, s)
    ensures form.action != DeleteContentAction ==> r == CreateContent(form, q, pagesPath, s)
    ensures form.action == DeleteContentAction ==> !r.response.CreateRejected? && !r.response.Created?
    ensures form.action != DeleteContentAction ==> !r.response.Deleted? && !r.response.DeleteFailed?
    ensures r.response.CreateRejected? || r.response.NothingCreated? ==> r.state == s
  {
    if form.action == DeleteContentAction then DeleteContent(form, q, pagesPath, s)
    else CreateContent(form, q, pagesPath, s)
  }

  /**
   * Submitting the same creation twice: once the table lists the new entry among the
   * siblings the second submission is checked against, that submission is refused by the
   * duplicate-title check, which comes before the check against the disk.
   */
  lemma CreateTwiceRejected(form: Form, q: TocQueries, q': TocQueries, pagesPath: Path, s: State)
    requires CreateContent(form, q, pagesPath, s).response.Created?
    requires ResolveChapter(form.containingChapter, q') == ResolveChapter(form.containingChapter, q)
    requires CreateContent(form, q, pagesPath, s).response.content
             in Siblings(ResolveChapter(form.containingChapter, q'), q')
    ensures var created := CreateContent(form, q, pagesPath, s);
            CreateContent(form, q', pagesPath, created.state)
            == Step(CreateRejected(if form.containingChapter == "" then TitleTakenAtTopLevel else TitleTakenInChapter),
                    created.state)
  {
    var created := CreateContent(form, q, pagesPath, s);
    var sibs := Siblings(ResolveChapter(form.containingChapter, q'), q');
    var k :| 0 <= k < |sibs| && sibs[k] == created.response.content;
    assert TitleTaken(sibs, form.title);
  }

  /**
   * Deleting, files included, an entry just created restores the table of contents and the
   * disk, provided the entry was not already listed and (for a chapter) nothing lay below
   * the new directory.
   */
  lemma CreateThenDeleteRestores(form: Form, q: TocQueries, del: Form, q': TocQueries, pagesPath: Path, s: State)
    requires CreateContent(form, q, pagesPath, s).response.Created?
    requires var c := CreateContent(form, q, pagesPath, s).response.content;
             && c !in s.toc
             && del.contentPath == c.path && del.deleteFiles == Some(CheckboxOn)
             && q'.contentAt(c.path) == Some(c)
             && (c.kind == Chapter ==> forall p :: p in s.disk ==> !Within(p, Join(pagesPath, c.path)))
    ensures DeleteContent(del, q', pagesPath, CreateContent(form, q, pagesPath, s).state) == Step(Deleted, s)
  {
    var created := CreateContent(form, q, pagesPath, s);
    var c := created.response.content;
    var file := Join(pagesPath, c.path);
    assert created.state == State(s.toc + [c], s.disk[file := NewNode(c.kind)]);
    RemoveEntryAppended(s.toc, c);
    RemoveCreatedFile(s.disk, file, c.kind);
  }

  /** Removing a file or a tree just added to a disk that held nothing there gives the disk back. */
  lemma RemoveCreatedFile(disk: Disk, file: Path, kind: Kind)
    requires file !in disk
    requires kind == Chapter ==> forall p :: p in disk ==> !Within(p, file)
    ensures kind == Chapter ==> RemoveTree(disk[file := NewNode(kind)], file) == disk
    ensures kind == Page ==> disk[file := NewNode(kind)] - {file} == disk
  {
    if kind == Chapter {
      var r := RemoveTree(disk[file := NewNode(kind)], file);
      assert r.Keys == disk.Keys;
    } else {
      assert (disk[file := NewNode(kind)] - {file}).Keys == disk.Keys;
    }
  }

  /** Removing an entry that was appended to a list not holding it gives the list back. */
  lemma {:induction false} RemoveEntryAppended(toc: seq<Content>, c: Content)
    requires c !in toc
    ensures RemoveEntry(toc + [c], c) == toc
  {
    if toc == [] {
      assert [] + [c] == [c];
    } else {
      assert (toc + [c])[1..] == toc[1..] + [c];
      RemoveEntryAppended(toc[1..], c);
    }
  }

  /**
   * Deleting an entry but keeping its files blocks creating it again: the same creation
   * form, once the entry's title is free again, is refused because the file still exists.
   */
  lemma DeleteKeepingFilesBlocksRecreation(form: Form, q: TocQueries, del: Form, q': TocQueries, pagesPath: Path, s: State)
    requires CreateContent(form, q, pagesPath, s).response.Created?
    requires var c := CreateContent(form, q, pagesPath, s).response.content;
             del.contentPath == c.path && del.deleteFiles != Some(CheckboxOn) && q'.contentAt(c.path) == Some(c)
    ensures var after := DeleteContent(del, q', pagesPath, CreateContent(form, q, pagesPath, s).state);
            CreateContent(form, q, pagesPath, after.state).response == CreateRejected(AlreadyExists)
  {
  }
}

=== FILE: file_system.dfy ===
/** The pages directory as the handlers see it: what exists at each path. */
module FileSystem {
  import opened Paths

  /** A regular file with its text, or a directory. */
  datatype Node = File(text: string) | Directory

  type Disk = map<Path, Node>
}

=== FILE: forms.dfy ===
/** Values the administration forms submit. */
module Forms {

  /** What a ticked HTML checkbox submits. */
  const CheckboxOn: string := "on"
}

=== FILE: paths.dfy ===
/**
 * POSIX path manipulation as the Python `posixpath` module does it: `join` with two
 * components, `basename` and `dirname`. Paths are plain strings; nothing is normalised.
 */
module Paths {

  type Path = string

  /** `os.sep` on POSIX. */
  const Sep: char := '/'

  predicate IsAbsolute(p: Path) {
    |p| > 0 && p[0] == Sep
  }

  predicate EndsWithSep(p: Path) {
    |p| > 0 && p[|p| - 1] == Sep
  }

  predicate AllSeps(p: Path) {
    forall j :: 0 <= j < |p| ==> p[j] == Sep
  }

  /**
   * `os.path.join(a, b)`: an absolute `b` replaces `a`; otherwise `b` is appended to `a`,
   * with a separator in between unless `a` is empty or already ends with one.
   */
  function Join(a: Path, b: Path): (r: Path)
    ensures IsAbsolute(b) ==> r == b
    ensures !IsAbsolute(b) ==> a <= r && |a| + |b| <= |r| <= |a| + |b| + 1
    ensures !IsAbsolute(b) && a != [] && !EndsWithSep(a) ==> |r| > |a| && r[|a|] == Sep
    ensures !IsAbsolute(b) && (a == [] || EndsWithSep(a)) ==> |r| == |a| + |b|
  {
    if IsAbsolute(b) then b
    else if a == [] || EndsWithSep(a) then a + b
    else a + [Sep] + b
  }

  /** The joined path ends with its second component. */
  lemma JoinEndsWith(a: Path, b: Path)
    ensures var r := Join(a, b); |b| <= |r| && r[|r| - |b|..] == b
  {
  }

  /** Position of the last separator in `p`, or -1 when there is none. */
  function LastSep(p: Path): (i: int)
    ensures -1 <= i < |p|
    ensures i >= 0 ==> p[i] == Sep
    ensures forall j :: i < j < |p| ==> p[j] != Sep
  {
    if |p| == 0 then -1
    else if p[|p| - 1] == Sep then |p| - 1
    else LastSep(p[..|p| - 1])
  }

  /** `os.path.basename`: what follows the last separator. */
  function Basename(p: Path): (r: Path)
    ensures Sep !in r
    ensures |r| <= |p| && r == p[|p| - |r|..]
  {
    p[LastSep(p) + 1..]
  }

  /** `str.rstrip('/')`. */
  function StripTrailingSeps(p: Path): (r: Path)
    ensures r <= p
    ensures !EndsWithSep(r)
    ensures forall j :: |r| <= j < |p| ==> p[j] == Sep
  {
    if EndsWithSep(p) then StripTrailingSeps(p[..|p| - 1]) else p
  }

  /**
   * `os.path.dirname`: everything up to the last separator, with trailing separators
   * removed unless the head consists of separators only (the root).
   */
  function Dirname(p: Path): (r: Path)
    ensures r <= p
    ensures Sep !in p ==> r == []
    ensures IsAbsolute(p) ==> IsAbsolute(r)
  {
    var head := p[..LastSep(p) + 1];
    if head != [] && !AllSeps(head) then StripTrailingSeps(head) else head
  }

  /** A path and everything below it, as `shutil.rmtree` sees the tree rooted at `dir`. */
  predicate Within(p: Path, dir: Path) {
    p == dir || dir + [Sep] <= p
  }

  /** Joining a single name onto any directory yields a path whose basename is that name. */
  lemma JoinBasename(a: Path, name: Path)
    requires Sep !in name
    ensures Basename(Join(a, name)) == name
  {
    var p := Join(a, name);
    if a == [] || EndsWithSep(a) {
      assert p == a + name;
      var i := LastSep(p);
      if a != [] {
        assert p[|a| - 1] == Sep;
      }
      assert i == |a| - 1;
    } else {
      assert p == a + [Sep] + name;
      var i := LastSep(p);
      assert p[|a|] == Sep;
      assert i == |a|;
    }
  }

  /**
   * The directory as `dirname` gives it back: trailing separators removed, unless the
   * directory consists of separators only. A directory not ending with a separator is
   * given back unchanged.
   */
  function AsDirname(a: Path): (r: Path)
    ensures !EndsWithSep(a) ==> r == a
    ensures AllSeps(a) ==> r == a
    ensures !AllSeps(a) ==> r != [] && !EndsWithSep(r) && r <= a
  {
    if AllSeps(a) then a else StripTrailingSeps(a)
  }

  /**
   * `join` and `dirname`/`basename` are inverse: joining a single name onto a directory,
   * then splitting the result, gives the name back and the directory as `dirname`
   * reports it, which is the directory itself when it does not end with a separator.
   */
  lemma JoinSplits(a: Path, name: Path)
    requires Sep !in name
    ensures Basename(Join(a, name)) == name
    ensures Dirname(Join(a, name)) == AsDirname(a)
    ensures !EndsWithSep(a) ==> Dirname(Join(a, name)) == a
  {
    JoinBasename(a, name);
    var p := Join(a, name);
    var i := LastSep(p);
    if a == [] {
      assert p == name;
      assert p[..i + 1] == [];
    } else if EndsWithSep(a) {
      assert p == a + name;
      assert p[|a| - 1] == Sep;
      assert i == |a| - 1;
      assert p[..i + 1] == a;
    } else {
      assert p == a + [Sep] + name;
      assert p[|a|] == Sep;
      assert i == |a|;
      var head := p[..i + 1];
      assert head == a + [Sep];
      assert head[|a| - 1] != Sep;
      assert !AllSeps(head);
      assert StripTrailingSeps(head) == StripTrailingSeps(a);
    }
  }

  /**
   * Appending a suffix to a joined path is the same as joining the suffixed component:
   * the handler's `path += ".rst"` and `content_path += ".rst"` keep the two in step.
   */
  lemma JoinExtend(a: Path, b: Path, suffix: Path)
    requires b != []
    ensures Join(a, b) + suffix == Join(a, b + suffix)
  {
    assert (b + suffix)[0] == b[0];
    assert IsAbsolute(b + suffix) == IsAbsolute(b);
  }

  /** A suffixed name joined onto a directory splits back into the directory and the suffixed name. */
  lemma JoinExtendSplits(a: Path, name: Path, suffix: Path)
    requires name != [] && Sep !in name && Sep !in suffix
    ensures Basename(Join(a, name) + suffix) == name + suffix
    ensures Dirname(Join(a, name) + suffix) == AsDirname(a)
  {
    JoinExtend(a, name, suffix);
    JoinSplits(a, name + suffix);
  }

  /** The result of joining a relative name never ends with a separator when the name does not. */
  lemma JoinNoTrailingSep(a: Path, name: Path)
    requires name != [] && Sep !in name
    ensures !EndsWithSep(Join(a, name))
  {
    var p := Join(a, name);
    assert p[|p| - 1] == name[|name| - 1];
  }
}

=== FILE: settings.dfy ===
/**
 * Where the syllabus finds its files: the configuration file, each course's "pages"
 * directory, the cache inside it, and the Sphinx source and build directories.
 */
module Settings {
  import opened Wrappers
  import opened Paths

  type Course = string

  /** Environment variables, either the process's or the request's. */
  type Env = map<string, string>

  const ConfigPathVar: string := "SYLLABUS_CONFIG_PATH"
  const ConfigFileName: Path := "configuration.yaml"
  /** `os.path.curdir` */
  const CurDir: Path := "."
  const PagesDirName: Path := "pages"
  const CacheDirName: Path := ".cache"
  const SourceDirName: Path := "source"
  const BuildDirName: Path := "build"
  const SyllabusBuildDirName: Path := "syllabus-build"

  /** The part of one course's entry in the configuration the model reads: `pages.path`. */
  datatype CourseConfig = CourseConfig(pagesPath: Option<Path>)

  /** The loaded configuration: its `courses` table. */
  datatype Config = Config(courses: map<Course, CourseConfig>)

  /**
   * The directory holding the configuration file: the process environment's variable
   * first, then the variable of the current request's environment (`requestEnv` is
   * `None` outside a request context), else the current directory.
   */
  function ConfigDir(osEnv: Env, requestEnv: Option<Env>): (dir: Path)
    ensures ConfigPathVar in osEnv ==> dir == osEnv[ConfigPathVar]
    ensures ConfigPathVar !in osEnv && requestEnv.Some? && ConfigPathVar in requestEnv.value
            ==> dir == requestEnv.value[ConfigPathVar]
    ensures ConfigPathVar !in osEnv && (requestEnv.None? || ConfigPathVar !in requestEnv.value)
            ==> dir == CurDir
  {
    if ConfigPathVar in osEnv then osEnv[ConfigPathVar]
    else if requestEnv.Some? && ConfigPathVar in requestEnv.value then requestEnv.value[ConfigPathVar]
    else CurDir
  }

  /** `get_config_path`: the configuration file inside the chosen directory. */
  function ConfigPath(osEnv: Env, requestEnv: Option<Env>): (p: Path)
    ensures Basename(p) == ConfigFileName
    ensures Dirname(p) == AsDirname(ConfigDir(osEnv, requestEnv))
    ensures ConfigPathVar !in osEnv && requestEnv.None? ==> p == "./configuration.yaml"
  {
    var dir := ConfigDir(osEnv, requestEnv);
    JoinSplits(dir, ConfigFileName);
    DefaultConfigPath();
    Join(dir, ConfigFileName)
  }

  /** With no variable set anywhere, the configuration file is looked up in the current directory. */
  lemma DefaultConfigPath()
    ensures Join(CurDir, ConfigFileName) == "./configuration.yaml"
  {
  }

  /** The process environment's setting overrides whatever the request carries. */
  lemma ConfigPathOsEnvWins(osEnv: Env, req1: Option<Env>, req2: Option<Env>)
    requires ConfigPathVar in osEnv
    ensures ConfigPath(osEnv, req1) == ConfigPath(osEnv, req2)
    ensures ConfigPath(osEnv, req1) == ConfigPath(osEnv, None)
  {
  }

  /** The base directory of a course's pages: its configured `pages.path`, or `cwd` when that is null. */
  function PagesBase(config: Config, course: Course, cwd: Path): (r: Option<Path>)
    ensures r.Some? <==> course in config.courses
    ensures r.Some? && config.courses[course].pagesPath.Some? ==> r.value == config.courses[course].pagesPath.value
    ensures r.Some? && config.courses[course].pagesPath.None? ==> r.value == cwd
  {
    if course !in config.courses then None
    else match config.courses[course].pagesPath
      case Some(p) => Some(p)
      case None => Some(cwd)
  }

  /**
   * `get_pages_path`: the "pages" directory inside the course's base directory; `None`
   * when the course has no entry in the configuration (the source raises a KeyError).
   */
  function PagesPath(config: Config, course: Course, cwd: Path): (r: Option<Path>)
    ensures r.Some? <==> course in config.courses
    ensures r.Some? ==> Basename(r.value) == PagesDirName && !EndsWithSep(r.value)
    ensures r.Some? && config.courses[course].pagesPath.Some?
            ==> Dirname(r.value) == AsDirname(config.courses[course].pagesPath.value)
    ensures r.Some? && config.courses[course].pagesPath.None? ==> Dirname(r.value) == AsDirname(cwd)
  {
    match PagesBase(config, course, cwd)
    case None => None
    case Some(base) =>
      JoinSplits(base, PagesDirName);
      JoinNoTrailingSep(base, PagesDirName);
      Some(Join(base, PagesDirName))
  }

  /** `get_pages_cache_path`: the ".cache" directory directly inside the course's pages directory. */
  function PagesCachePath(config: Config, course: Course, cwd: Path): (r: Option<Path>)
    ensures r.Some? <==> PagesPath(config, course, cwd).Some?
    ensures r.Some? ==> Dirname(r.value) == PagesPath(config, course, cwd).value
    ensures r.Some? ==> Basename(r.value) == CacheDirName
  {
    match PagesPath(config, course, cwd)
    case None => None
    case Some(pages) =>
      JoinSplits(pages, CacheDirName);
      Some(Join(pages, CacheDirName))
  }

  /** The Sphinx source directory of a course: "source" directly inside its pages directory. */
  function SphinxSourceDir(pages: Path): (r: Path)
    ensures Dirname(r) == AsDirname(pages) && Basename(r) == SourceDirName
  {
    JoinSplits(pages, SourceDirName);
    Join(pages, SourceDirName)
  }

  /** The Sphinx build directory of a course: "build/syllabus-build" inside its pages directory. */
  function SphinxBuildDir(pages: Path): (r: Path)
    ensures Dirname(Dirname(r)) == AsDirname(pages) && Basename(Dirname(r)) == BuildDirName
    ensures Basename(r) == SyllabusBuildDirName
  {
    var build := Join(pages, BuildDirName);
    JoinNoTrailingSep(pages, BuildDirName);
    JoinSplits(build, SyllabusBuildDirName);
    JoinSplits(pages, BuildDirName);
    Join(build, SyllabusBuildDirName)
  }
}

=== FILE: toc_edition.dfy ===
/**
 * The table-of-contents page: an administrator submits a whole new table as YAML text.
 * It is written to the pages directory only when it parses and is consistent with the
 * pages on disk. Parsing and the consistency test are parameters.
 */
module TocEdition {
  import opened Wrappers
  import opened Paths
  import opened FileSystem

  const TocFileName: Path := "toc.yaml"

  datatype TocOutcome =
    | NotSubmitted                        // no "new_content" field
    | InvalidYaml
    | Inconsistent                        // parses, but does not match the pages on disk
    | WriteFailed(file: Path)             // "toc.yaml" is a directory: `open(..., "w")` raises
    | Written(file: Path, text: string)

  /** The outcomes after which the page reports a successful modification. */
  predicate ReportsSuccess(o: TocOutcome) {
    o.NotSubmitted? || o.Written?
  }

  datatype TocStep = TocStep(outcome: TocOutcome, disk: Disk)

  /** The file at `file` holds a table of contents that parses and is consistent. */
  predicate ValidTocFile<D>(disk: Disk, file: Path, parse: string -> Option<D>, consistent: D -> bool) {
    file in disk && disk[file].File? && parse(disk[file].text).Some? && consistent(parse(disk[file].text).value)
  }

  /**
   * A POST to the table-of-contents page: the submitted text is stored verbatim in the
   * pages directory's "toc.yaml" when it parses and is consistent; otherwise nothing is written.
   * Opening a directory for writing raises, so nothing is written then either and the
   * page does not report success.
   */
  function TocEditionPost<D>(newContent: Option<string>, parse: string -> Option<D>, consistent: D -> bool,
                             pagesPath: Path, disk: Disk): (r: TocStep)
    ensures r.outcome.Written? <==> newContent.Some? && parse(newContent.value).Some? && consistent(parse(newContent.value).value)
                                    && !(Join(pagesPath, TocFileName) in disk && disk[Join(pagesPath, TocFileName)].Directory?)
    ensures r.outcome.WriteFailed? <==> newContent.Some? && parse(newContent.value).Some? && consistent(parse(newContent.value).value)
                                        && Join(pagesPath, TocFileName) in disk && disk[Join(pagesPath, TocFileName)].Directory?
    ensures r.outcome.WriteFailed? ==> r.outcome.file == Join(pagesPath, TocFileName)
    ensures r.outcome == InvalidYaml <==> newContent.Some? && parse(newContent.value).None?
    ensures r.outcome == Inconsistent <==> newContent.Some? && parse(newContent.value).Some? && !consistent(parse(newContent.value).value)
    ensures r.outcome == NotSubmitted <==> newContent.None?
    ensures ReportsSuccess(r.outcome) <==> newContent.None? || r.outcome.Written?
    ensures !r.outcome.Written? ==> r.disk == disk
    ensures r.outcome.Written? ==>
              && Basename(r.outcome.file) == TocFileName
              && Dirname(r.outcome.file) == AsDirname(pagesPath)
              && r.outcome.text == newContent.value
              && r.disk == disk[r.outcome.file := File(newContent.value)]
  {
    match newContent
    case None => TocStep(NotSubmitted, disk)
    case Some(text) =>
      match parse(text)
      case None => TocStep(InvalidYaml, disk)
      case Some(toc) =>
        if !consistent(toc) then TocStep(Inconsistent, disk)
        else
          var file := Join(pagesPath, TocFileName);
          JoinSplits(pagesPath, TocFileName);
          if file in disk && disk[file].Directory? then TocStep(WriteFailed(file), disk)
          else TocStep(Written(file, text), disk[file := File(text)])
  }

  /** A valid table-of-contents file stays valid whatever is submitted. */
  lemma TocFileStaysValid<D>(newContent: Option<string>, parse: string -> Option<D>, consistent: D -> bool,
                             pagesPath: Path, disk: Disk)
    requires ValidTocFile(disk, Join(pagesPath, TocFileName), parse, consistent)
    ensures ValidTocFile(TocEditionPost(newContent, parse, consistent, pagesPath, disk).disk,
                         Join(pagesPath, TocFileName), parse, consistent)
  {
  }
}

=== FILE: users.dfy ===
/**
 * The "change_right" branch of the users page: an administrator grants or withdraws the
 * administrator right of another user. The user table is a list of records, searched in
 * order as the database query's `first()` does.
 */
module Users {
  import opened Wrappers
  import opened Forms

  /** A user; `right` is `Some("admin")` for administrators and usually `None` otherwise. */
  datatype User = User(username: string, right: Option<string>)

  /** The fields of the submitted form; `admin` is absent when the checkbox was left unticked. */
  datatype UsersForm = UsersForm(action: string, username: string, admin: Option<string>)

  const ChangeRightAction: string := "change_right"
  const AdminRight: string := "admin"

  datatype UsersResponse =
    | RightsEdited(username: string)
    | Unchanged
    | NoSuchUser   // the query finds nobody; the source then fails on `None.username`

  datatype UsersStep = UsersStep(response: UsersResponse, users: seq<User>)

  /** The position of the first user with that name, if any. */
  function FirstNamed(users: seq<User>, name: string): (r: Option<nat>)
    ensures r.Some? ==> r.value < |users| && users[r.value].username == name
    ensures r.Some? ==> forall j :: 0 <= j < r.value ==> users[j].username != name
    ensures r.None? <==> forall j :: 0 <= j < |users| ==> users[j].username != name
  {
    if users == [] then None
    else if users[0].username == name then Some(0)
    else match FirstNamed(users[1..], name)
      case None => None
      case Some(i) => Some(i + 1)
  }

  /** The right a user gets from the form: administrator exactly when the checkbox is on. */
  function GrantedRight(form: UsersForm): (r: Option<string>)
    ensures r == Some(AdminRight) <==> form.admin == Some(CheckboxOn)
    ensures r != Some(AdminRight) ==> r == None
  {
    if form.admin == Some(CheckboxOn) then Some(AdminRight) else None
  }

  /**
   * A POST to the users page. Only "change_right" does anything: it sets the right of the
   * named user, unless that user is the one logged in, whose right never changes.
   */
  function UsersPost(form: UsersForm, sessionUser: string, users: seq<User>): (r: UsersStep)
    ensures |r.users| == |users|
    ensures forall j :: 0 <= j < |users| ==> r.users[j].username == users[j].username
    ensures forall j :: 0 <= j < |users| && users[j].username == sessionUser ==> r.users[j] == users[j]
    ensures form.action != ChangeRightAction ==> r == UsersStep(Unchanged, users)
    ensures r.response == NoSuchUser
            <==> form.action == ChangeRightAction && forall j :: 0 <= j < |users| ==> users[j].username != form.username
    ensures r.response.RightsEdited?
            <==> form.action == ChangeRightAction && form.username != sessionUser
                 && exists j :: 0 <= j < |users| && users[j].username == form.username
    ensures !r.response.RightsEdited? ==> r.users == users
    ensures r.response.RightsEdited? ==>
              && r.response.username == form.username
              && exists i :: 0 <= i < |users| && users[i].username == form.username
                   && (forall j :: 0 <= j < i ==> users[j].username != form.username)
                   && r.users[i].right == GrantedRight(form)
                   && (forall j :: 0 <= j < |users| && j != i ==> r.users[j] == users[j])
  {
    if form.action != ChangeRightAction then UsersStep(Unchanged, users)
    else match FirstNamed(users, form.username)
      case None => UsersStep(NoSuchUser, users)
      case Some(i) =>
        if users[i].username == sessionUser then UsersStep(Unchanged, users)
        else UsersStep(RightsEdited(users[i].username), users[i := users[i].(right := GrantedRight(form))])
  }

  /** The first user with a given name depends only on the names in the table. */
  lemma {:induction false} FirstNamedOnlyReadsNames(u1: seq<User>, u2: seq<User>, name: string)
    requires |u1| == |u2|
    requires forall j :: 0 <= j < |u1| ==> u1[j].username == u2[j].username
    ensures FirstNamed(u1, name) == FirstNamed(u2, name)
  {
    if u1 != [] && u1[0].username != name {
      FirstNamedOnlyReadsNames(u1[1..], u2[1..], name);
    }
  }

  /** Submitting the same form twice leaves the table as submitting it once does. */
  lemma UsersPostIdempotent(form: UsersForm, sessionUser: string, users: seq<User>)
    ensures var once := UsersPost(form, sessionUser, users).users;
            UsersPost(form, sessionUser, once).users == once
  {
    var once := UsersPost(form, sessionUser, users).users;
    FirstNamedOnlyReadsNames(users, once, form.username);
  }
}

=== FILE: wrappers.dfy ===
/** Failure-carrying values shared by the other modules. */
module Wrappers {

  /** A value that may be absent: Python's `None`, a missing key or attribute. */
  datatype Option<+T> = None | Some(value: T)

  /** The outcome of a step that either succeeds with a value or stops with an error. */
  datatype Result<+R, +E> = Success(value: R) | Failure(error: E)
}
